=== FILE: README.md ===
# Quiz session controller

A model of the state logic behind the single screen of a timed true/false
quiz: the `Game` component of `src/pages/game.tsx`. The component holds two
fixed pools of statements, 18 easy ones worth one point and 6 hard ones worth
two. It keeps six pieces of state: score, question index, current question,
seconds left, and the two terminal flags `endGame` (the round is over) and
`endTime` (time is up). Its logic is:

- a loading effect that samples a round of 6 easy and 2 hard questions and
  shows the one at the current index, or ends the round after the eighth;
- a timer effect that takes a second off a 20-second countdown while a
  question is loaded and raises `endTime` at zero;
- `handleAnswer`, which advances the index and adds the question's points
  when the answer is right;
- a render branch that picks the end message (time-up first, then won at
  10, almost there at 5 to 9, try again below 5) or the question view.

The model states these as pure functions over an immutable `Session`:

- `Questions`: the pools.
- `Sampler`: round sampling. The shuffle is an input (`Draw`), constrained
  only to be a rearrangement of each pool.
- `Controller`: the effects and the click handler, as atomic events. A
  `Press` is a click followed by the load it triggers. A `Second` is one
  interval callback followed by the timer effect. `Run` replays any
  sequence of events.
- `Screen`: the render branch.
- `Play`: whole-round properties.
- `Findings`: two behaviours of the code as written that run against what
  the code itself evidently means.
- `Corrected`: a controller without them.

A click only acts while the answer buttons are rendered (lines 155-184),
that is, with no terminal flag set and a question loaded.

In two places the code does not do what it evidently means, and the model
follows the code:

- `getRandomQuestions` (lines 67-77) builds a whole round of eight distinct
  questions, sampled without replacement from each pool. The evident intent
  is one round shown in turn. Yet the loading effect calls it again on every
  load and reads only the element at the current index (lines 90-91), so a
  question can come back.
- The countdown belongs to the open question: every load resets it to 20
  (line 92), and it runs only while a question is loaded (line 101). Yet
  when the round ends, the last question stays loaded, so the interval keeps
  running until `timeLeft` reaches 0 (lines 101-107).

Both are listed under Findings.

## Model

| member | source | states |
|---|---|---|
| Questions.Points | src/pages/game.tsx:117-119 | a correct answer earns 1 or 2 points, and 2 exactly for a hard question |
| Questions.EasyPool | src/pages/game.tsx:17-36 | the easy pool has 18 entries, all easy, with no repeats |
| Questions.HardPool | src/pages/game.tsx:38-65 | the hard pool has 6 entries, all hard, with no repeats |
| Questions.Pool | src/pages/game.tsx:17-65 | a pool built from an answer table has one entry per answer, carries that answer at each position, has one difficulty and no repeats |
| Sampler.Take | src/pages/game.tsx:71-75 | `slice(0, n)` keeps a prefix of length min(n, size) |
| Sampler.SampleRound | src/pages/game.tsx:67-77 | a round has 8 questions: positions 0-5 are the first six of the shuffled easy copy and 6-7 the first two of the shuffled hard copy, each with the difficulty of its position |
| Sampler.RoundFromPools | src/pages/game.tsx:67-77 | every question of a round comes from the pool of its position |
| Sampler.RoundWithoutReplacement | src/pages/game.tsx:67-77 | each part of a round uses no pool question more often than the pool holds it |
| Sampler.ShuffleKeepsDistinct | src/pages/game.tsx:68-74 | rearranging a pool with no repeats gives a sequence with no repeats |
| Sampler.RoundIsDistinct | src/pages/game.tsx:67-77 | the eight questions of one sampled round are pairwise different |
| Controller.MaxRoundScoreIsTen | src/pages/game.tsx:118-122 | answering all eight positions right is worth 6 x 1 + 2 x 2 = 10 points |
| Controller.HandleAnswer | src/pages/game.tsx:115-125 | the index goes up by one; the score goes up exactly when a question is loaded and the answer matches, and then by that question's points; nothing else changes |
| Controller.Load | src/pages/game.tsx:88-96 | below index 8 and before the round ends, the question at the index of a fresh round is loaded (it has that position's difficulty) with 20 seconds; otherwise only `endGame` is raised |
| Controller.Tick | src/pages/game.tsx:98-113 | a second passes only while time remains and a question is loaded: it takes one second off and raises `endTime` exactly on reaching 0; otherwise nothing changes, and the countdown never goes below 0 |
| Controller.Submit | src/pages/game.tsx:171-184 | a click without buttons changes nothing; with buttons it is `handleAnswer` followed by the loading effect: the index advances by one and the points are added exactly for a right answer. Before index 8 the question at the new index of a fresh round is loaded with 20 seconds. At index 8 the round ends, with the question and countdown left as they were |
| Controller.Mount | src/pages/game.tsx:80-96 | once the mount's loading effect has run, an easy question is loaded with score 0, index 0, 20 seconds and no flag set, in a state satisfying the session invariant |
| Controller.TickKeepsInv | src/pages/game.tsx:98-113 | a second keeps the session invariant: 0..20 seconds, zero exactly at time-up, index 0..8 and 8 exactly at round end, score within what the answered positions can give |
| Controller.AnswerKeepsScoreBound | src/pages/game.tsx:117-119 | an answer at position i lifts the score by at most the points of position i |
| Controller.SubmitToKeepsInv | src/pages/game.tsx:88-125 | a click followed by a load from any correctly shaped round keeps the session invariant |
| Controller.SubmitKeepsInv | src/pages/game.tsx:88-125 | a click followed by its load keeps the session invariant |
| Controller.Step | src/pages/game.tsx:88-125 | any event keeps the invariant and never lowers score or index; once a terminal flag is set, score and index stay and the flag stays |
| Controller.Run | src/pages/game.tsx:88-125 | along any sequence of events, score and index never decrease, the invariant holds, and after a terminal flag score and index are frozen |
| Screen.View | src/pages/game.tsx:135-187 | an end message is shown exactly when a terminal flag is set and carries the score; time-up exactly when `endTime`; for a finished round, won exactly at 10, almost there exactly at 5-9, try again exactly below 5; the question view exactly when buttons act |
| Screen.ReachableScreens | src/pages/game.tsx:135-156 | a state reachable by folded steps never shows a blank screen; the won message means no point was lost; almost there means 5 to 9 points |
| Play.ReachableScoreAtMostTen | src/pages/game.tsx:115-125 | from any state satisfying the session invariant, no sequence of clicks and seconds, each click folded with its load, scores above 10 |
| Play.ScoreAtMostTen | src/pages/game.tsx:115-125 | from the mount, no sequence of clicks and seconds, each click folded with its load, scores above 10 |
| Play.PlannedStep | src/pages/game.tsx:88-125 | a click answering right or wrong as planned earns exactly the points the plan gives that position, and either ends the round or restarts the countdown at 20 |
| Play.PlannedRoundScore | src/pages/game.tsx:88-125 | for any draws, letting any number of seconds below 20 pass before each click, and answering each position right or wrong as planned, ends the round before time is up with exactly the sum of points of the positions answered right |
| Play.PerfectRoundWins | src/pages/game.tsx:144-145 | answering all eight right, each within its 20 seconds, gives 10 points and the won message |
| Play.FourRightThenWrongTriesAgain | src/pages/game.tsx:146-149 | four easy right and four wrong, each within its 20 seconds, gives 4 points and the try-again message |
| Play.PressesCompleteRound | src/pages/game.tsx:89-94 | as many clicks as questions remain, with seconds anywhere among them, either end the round at index 8 or run into time-up first; with no second among them, time never runs out |
| Play.EightPressesEndRound | src/pages/game.tsx:135-150 | eight clicks from the mount, with any seconds among them, end with time-up or with one of the three score messages; eight clicks in a row always end with a score message |
| Play.SecondsWithinTime | src/pages/game.tsx:101-104 | fewer seconds than remain, with no click, only count the countdown down: the rest of the state is unchanged and time is not up |
| Play.TicksRunOut | src/pages/game.tsx:98-108 | with no click, after the remaining seconds time is up with score, index and round flag unchanged |
| Play.IdleFirstQuestionTimesOut | src/pages/game.tsx:101-106 | twenty idle seconds on the first question show time-up with 0 points |
| Play.TimeUpIsFinal | src/pages/game.tsx:135-141 | once time is up, no event changes what is on screen |
| Findings.WonScreenTimesOut | src/pages/game.tsx:98-113 | on any reachable state showing the won message, time is still left, and once it passes the time-up message with the same 10 points replaces it |
| Findings.WinTurnsIntoTimeUp | src/pages/game.tsx:98-113 | after a perfect round, with any waits below 20 seconds before the clicks, the won message is shown with time left, and once that time passes the time-up message replaces it |
| Findings.RedrawCanRepeat | src/pages/game.tsx:88-91 | for every round drawn at the mount, some valid draw at the first click loads the first question again |
| Corrected.Start | src/pages/game.tsx:80-96 | the corrected mount samples the round once and loads its first question, with score 0 and index 0 |
| Corrected.StoppedTick | src/pages/game.tsx:98-113 | a corrected second changes only the countdown. It takes one second off only while the round is open, time remains and a question is loaded. Time-up is raised exactly when the last second of an open round passes. Otherwise nothing changes |
| Corrected.GameStep | src/pages/game.tsx:88-125 | a corrected input keeps the round and the consistency invariant, never lowers the score, and changes nothing once terminal |
| Corrected.GameRun | src/pages/game.tsx:88-125 | along any corrected run the round is fixed, the question shown is the round's at its index, and a terminal game is left exactly as it is |
| Corrected.EndScreenStable | src/pages/game.tsx:135-154 | in the corrected game an end message, once shown, never changes |
| Corrected.NoQuestionRepeats | src/pages/game.tsx:88-91 | in the corrected game two different positions of a run show different questions |
| Corrected.PerfectClicksFinish | src/pages/game.tsx:115-125 | in the corrected game, answering every remaining question right ends the round with the full score |
| Corrected.PerfectGameStaysWon | src/pages/game.tsx:144-145 | the corrected game can be won with 10 points, and the won message then stays whatever follows |

## Left out

- `scorePercentage` and the progress bar (line 127, line 161): they are display-only arithmetic on floating point and do not feed back into the state.
- Markup, styling, the dark-mode logo, the text animation and the navigation links back to `/` (lines 129-190). Following a link away unmounts the component and discards the session; opening the game page again mounts a fresh one, which `Mount` models.
- The statement texts (lines 18-35, 40-63) are replaced by labels such as `easy 03`. Only their distinctness matters to the controller. The answers and difficulties are copied in pool order.
- The `Math.random` comparator (lines 70, 74) is an input. The model admits any rearrangement of each pool and says nothing about the distribution.
- React scheduling: each effect is folded into the event that triggers it, so a click is never handled before the loading effect that follows the previous click has run. The model does not cover the intermediate renders. Three of them matter here, and the list may not be complete:
  - the first render, before the mount's loading effect runs, in which `currentQuestion` is null and nothing is shown (line 156);
  - the render after each click, in which `handleAnswer` has committed the new score and index (lines 119, 122) but the loading effect (lines 88-95) has not yet replaced the question or set `endGame`. The old question's buttons are still on screen (lines 156-184), and a click landing there answers the same question again;
  - the render in which `timeLeft` is already 0 but `endTime` is not yet set.
  An interval that outlives its cleanup is not modelled either.
- Play.ReachableScoreAtMostTen: the bound of 10 holds only for runs of folded steps. A second click in the post-click render above can score the same question twice, reaching more than 10.
- Play.ScoreAtMostTen: likewise holds only for folded steps, for the same reason.
- Screen.ReachableScreens: "never blank", "won means no point was lost" and "almost there means 5 to 9" hold only for states reached by folded steps. A double-scored question breaks the last two, and the first render breaks the first.
- Real time: a `Second` event stands for one firing of the 1000 ms interval (line 104).

## Findings

| source | as written | input that shows it | evidently intended | confidence | as-written member | corrected member |
|---|---|---|---|---|---|---|
| src/pages/game.tsx:98-113 | the interval keeps running after the round ends, because only `timeLeft === 0` stops it, and `endTime` has priority in the render | answer all eight questions right, then wait out the seconds left on the last question | the won message stays once the round ends | not executed | Findings.WonScreenTimesOut | Corrected.PerfectGameStaysWon |
| src/pages/game.tsx:88-91 | every load samples a new round and keeps only the question at the current index, so a round can repeat a question | mount with the easy pool in order, then click with the first two easy entries exchanged: the second question is the first one again | a round is sampled once and its eight distinct questions are shown in turn | not executed | Findings.RedrawCanRepeat | Corrected.NoQuestionRepeats |

=== FILE: controller.dfy ===
/**
  The quiz-session controller of the `Game` component, as an immutable
  state record and atomic transitions.  React re-runs an effect after
  any render in which one of its dependencies changed; here each user
  or timer event is followed by the effects it triggers, as one step:

  - `Press(choice, draw)`: an answer button is clicked (`handleAnswer`),
    then the index change re-runs the loading effect, which samples a
    fresh round from `draw`;
  - `Second`: the one-second interval fires, then the timer effect sees
    the new `timeLeft`.
 */
module Controller {

  import opened Wrappers
  import opened Questions
  import opened Sampler

  /** Seconds granted for each question. */
  const QuestionTime: int := 20

  datatype Session = Session(
    score: nat,
    index: nat,
    current: Option<Question>,
    timeLeft: int,
    endGame: bool,
    endTime: bool)

  /** The state a freshly mounted `Game` starts from, before any effect has run. */
  function Initial(): Session
  {
    Session(0, 0, None, QuestionTime, false, false)
  }

  /** The greatest score the first `i` positions of a round can give. */
  function MaxScoreBefore(i: nat): nat
    requires i <= RoundLength
  {
    if i == 0 then 0 else MaxScoreBefore(i - 1) + Points(DifficultyAt(i - 1))
  }

  /** The greatest score of a whole round. */
  lemma {:induction false} MaxRoundScoreIsTen()
    ensures MaxScoreBefore(RoundLength) == 10
  {
    assert MaxScoreBefore(0) == 0;
    assert MaxScoreBefore(1) == 1;
    assert MaxScoreBefore(2) == 2;
    assert MaxScoreBefore(3) == 3;
    assert MaxScoreBefore(4) == 4;
    assert MaxScoreBefore(5) == 5;
    assert MaxScoreBefore(6) == 6;
    assert MaxScoreBefore(7) == 8;
  }

  /**
    `handleAnswer`: a submission equal to the loaded question's answer
    earns that question's points; every submission moves to the next index.
   */
  function HandleAnswer(s: Session, choice: bool): (r: Session)
    ensures r.index == s.index + 1
    ensures r.score >= s.score
    ensures r.score > s.score <==> s.current.Some? && choice == s.current.value.answer
    ensures r.score > s.score ==> r.score == s.score + Points(s.current.value.difficulty)
    ensures r == s.(score := r.score, index := r.index)
  {
    var earned := if s.current.Some? && choice == s.current.value.answer
      then Points(s.current.value.difficulty) else 0;
    s.(score := s.score + earned, index := s.index + 1)
  }

  /** The loading effect, reading the element at the current index of `round`. */
  function LoadFrom(s: Session, round: seq<Question>): Session
    requires |round| == RoundLength
  {
    if s.index < RoundLength && !s.endGame then
      s.(current := Some(round[s.index]), timeLeft := QuestionTime)
    else
      s.(endGame := true)
  }

  /**
    The loading effect as the game runs it: while questions remain, a new
    round is sampled and only its element at the current index is kept,
    with a fresh countdown; otherwise the round is over.
   */
  function Load(s: Session, d: ShuffledDraw): (r: Session)
    ensures r.score == s.score && r.index == s.index && r.endTime == s.endTime
    ensures s.index < RoundLength && !s.endGame ==>
      && r.current == Some(SampleRound(d)[s.index])
      && r.current.value.difficulty == DifficultyAt(s.index)
      && r.timeLeft == QuestionTime
      && !r.endGame
    ensures !(s.index < RoundLength && !s.endGame) ==> r == s.(endGame := true)
  {
    LoadFrom(s, SampleRound(d))
  }

  /** An interval is scheduled while time remains and a question is loaded. */
  predicate TimerRunning(s: Session)
  {
    s.timeLeft > 0 && s.current.Some?
  }

  /** The timer effect's other branch: at zero seconds the time is up. */
  function TimerEffect(s: Session): Session
  {
    if !TimerRunning(s) && s.timeLeft == 0 then s.(endTime := true) else s
  }

  /**
    One second of the interval: only a running timer fires, it takes one
    second off, and reaching zero ends the game by time.
   */
  function Tick(s: Session): (r: Session)
    ensures r.score == s.score && r.index == s.index && r.current == s.current
    ensures r.endGame == s.endGame
    ensures TimerRunning(s) ==> r.timeLeft == s.timeLeft - 1
    ensures !TimerRunning(s) ==> r == s
    ensures r.endTime <==> s.endTime || (TimerRunning(s) && s.timeLeft == 1)
    ensures s.timeLeft >= 0 ==> r.timeLeft >= 0
  {
    if TimerRunning(s) then TimerEffect(s.(timeLeft := s.timeLeft - 1)) else s
  }

  /** Either terminal flag is set. */
  predicate Terminal(s: Session)
  {
    s.endGame || s.endTime
  }

  /** The answer buttons are rendered only in the question view. */
  predicate AnswerEnabled(s: Session)
  {
    !s.endTime && !s.endGame && s.current.Some?
  }

  /**
    A click on an answer button, with the load that follows it reading
    `round`: without buttons nothing happens.
   */
  function SubmitTo(s: Session, choice: bool, round: seq<Question>): Session
    requires |round| == RoundLength
  {
    if AnswerEnabled(s) then LoadFrom(HandleAnswer(s, choice), round) else s
  }

  /**
    A click on an answer button as the game runs it: without buttons
    nothing happens; otherwise the index advances by one, the score by the
    question's points when the answer is right, and the question at the
    new index of a freshly sampled round is loaded with a full countdown,
    or, after the eighth answer, the round ends with the last question and
    its countdown left as they were.
   */
  function Submit(s: Session, choice: bool, d: ShuffledDraw): (r: Session)
    ensures !AnswerEnabled(s) ==> r == s
    ensures AnswerEnabled(s) ==> r == Load(HandleAnswer(s, choice), d)
    ensures AnswerEnabled(s) ==>
      && r.index == s.index + 1
      && r.endTime == s.endTime
      && (r.score > s.score <==> choice == s.current.value.answer)
      && (r.score > s.score ==> r.score == s.score + Points(s.current.value.difficulty))
      && (r.endGame <==> r.index >= RoundLength)
    ensures AnswerEnabled(s) && s.index + 1 < RoundLength ==>
      r.current == Some(SampleRound(d)[s.index + 1]) && r.timeLeft == QuestionTime
    ensures AnswerEnabled(s) && s.index + 1 >= RoundLength ==>
      r.current == s.current && r.timeLeft == s.timeLeft
  {
    SubmitTo(s, choice, SampleRound(d))
  }

  /** Mounting the component: the loading effect runs once on the initial state. */
  function Mount(d: ShuffledDraw): (r: Session)
    ensures r.score == 0 && r.index == 0 && r.timeLeft == QuestionTime
    ensures !r.endGame && !r.endTime
    ensures r.current.Some? && r.current.value in EasyPool()
    ensures Inv(r)
  {
    RoundFromPools(d, 0);
    Load(Initial(), d)
  }

  datatype Event = Second | Press(choice: bool, draw: ShuffledDraw)

  /** Position of the question on screen: index 8 still shows the last one. */
  function Shown(index: nat): nat
  {
    if index < RoundLength then index else RoundLength - 1
  }

  /**
    What holds of every state reachable from a mount: the countdown stays
    within 0..20 and is zero exactly when time is up, the index stays
    within 0..8 and reaches 8 exactly when the round is over, the loaded
    question has the difficulty of its position, and the score is within
    what the answered positions can give.
   */
  ghost predicate Inv(s: Session)
  {
    && 0 <= s.timeLeft <= QuestionTime
    && s.index <= RoundLength
    && (s.endGame <==> s.index == RoundLength)
    && (s.endTime <==> s.timeLeft == 0)
    && s.current.Some?
    && s.current.value.difficulty == DifficultyAt(Shown(s.index))
    && s.score <= MaxScoreBefore(s.index)
  }

  lemma TickKeepsInv(s: Session)
    ensures Inv(s) ==> Inv(Tick(s))
  {
  }

  /** The score bound grows by exactly the points of the position answered. */
  lemma AnswerKeepsScoreBound(s: Session, choice: bool)
    requires s.index < RoundLength && s.score <= MaxScoreBefore(s.index)
    requires s.current.Some? && s.current.value.difficulty == DifficultyAt(s.index)
    ensures HandleAnswer(s, choice).score <= MaxScoreBefore(s.index + 1)
  {
  }

  lemma SubmitToKeepsInv(s: Session, choice: bool, round: seq<Question>)
    requires RoundShaped(round)
    ensures Inv(s) ==> Inv(SubmitTo(s, choice, round))
  {
  }


  lemma SubmitKeepsInv(s: Session, choice: bool, d: ShuffledDraw)
    ensures Inv(s) ==> Inv(Submit(s, choice, d))
  {
    SubmitToKeepsInv(s, choice, SampleRound(d));
  }

  /**
    One event.  It never lowers the score or the index, keeps `Inv`, and
    changes neither once a terminal flag is set.
   */
  function Step(s: Session, e: Event): (r: Session)
    ensures r.score >= s.score && r.index >= s.index
    ensures Terminal(s) ==> Terminal(r) && r.score == s.score && r.index == s.index
    ensures s.endTime ==> r.endTime
    ensures s.endGame ==> r.endGame
    ensures Inv(s) ==> Inv(r)
  {
    match e
    case Second =>
      TickKeepsInv(s);
      Tick(s)
    case Press(choice, d) =>
      SubmitKeepsInv(s, choice, d);
      Submit(s, choice, d)
  }

  /**
    A sequence of events.  Along any run the score and the index never
    decrease, `Inv` is kept, and once either terminal flag is set neither
    the score nor the index changes again.
   */
  function Run(s: Session, es: seq<Event>): (r: Session)
    ensures r.score >= s.score && r.index >= s.index
    ensures Terminal(s) ==> Terminal(r) && r.score == s.score && r.index == s.index
    ensures s.endTime ==> r.endTime
    ensures s.endGame ==> r.endGame
    ensures Inv(s) ==> Inv(r)
    decreases |es|
  {
    if |es| == 0 then s else Run(Step(s, es[0]), es[1..])
  }
}

=== FILE: corrected.dfy ===
/**
  The controller as the game evidently means it: one round of distinct
  questions is sampled when the game is mounted and every load reads that
  round, and the countdown, which belongs to the open question, stops as
  soon as a terminal flag is set.  The transitions are otherwise those of
  the controller.
 */
module Corrected {

  import opened Wrappers
  import opened Questions
  import opened Sampler
  import opened Controller
  import opened Screen

  /** A session together with the round drawn for it at the mount. */
  datatype Game = Game(session: Session, round: seq<Question>)

  datatype Input = Click(choice: bool) | OneSecond

  /**
    The game's round is fixed, has no repeated question and the right
    difficulty at every position; the loaded question is the round's
    question at the current position.
   */
  ghost predicate Consistent(g: Game)
  {
    && RoundShaped(g.round)
    && Distinct(g.round)
    && Inv(g.session)
    && g.session.current == Some(g.round[Shown(g.session.index)])
  }

  /** Mounting: the round is drawn once, and its first question loaded. */
  function Start(d: ShuffledDraw): (g: Game)
    ensures Consistent(g)
    ensures g.round == SampleRound(d)
    ensures g.session.score == 0 && g.session.index == 0 && !Terminal(g.session)
  {
    RoundIsDistinct(d);
    var round := SampleRound(d);
    Game(LoadFrom(Initial(), round), round)
  }

  /**
    The interval, cancelled once the round is over or time is up: a second
    counts only while the question is open and time remains, and time can
    run out only while the round is still being played.
   */
  function StoppedTick(s: Session): (r: Session)
    ensures r.score == s.score && r.index == s.index && r.current == s.current
    ensures r.endGame == s.endGame
    ensures Terminal(s) || !TimerRunning(s) ==> r == s
    ensures !Terminal(s) && TimerRunning(s) ==> r.timeLeft == s.timeLeft - 1
    ensures r.endTime <==> s.endTime || (!s.endGame && TimerRunning(s) && s.timeLeft == 1)
  {
    if Terminal(s) then s else Tick(s)
  }

  lemma ClickKeepsConsistent(g: Game, choice: bool)
    requires |g.round| == RoundLength
    ensures Consistent(g) ==> Consistent(Game(SubmitTo(g.session, choice, g.round), g.round))
  {
    if Consistent(g) {
      SubmitToKeepsInv(g.session, choice, g.round);
    }
  }

  /**
    One input.  It keeps the round and `Consistent`, never lowers the
    score, and once a terminal flag is set changes nothing at all.
   */
  function GameStep(g: Game, i: Input): (r: Game)
    requires |g.round| == RoundLength
    ensures r.round == g.round
    ensures r.session.score >= g.session.score && r.session.index >= g.session.index
    ensures Terminal(g.session) ==> r == g
    ensures Consistent(g) ==> Consistent(r)
  {
    match i
    case Click(choice) =>
      ClickKeepsConsistent(g, choice);
      Game(SubmitTo(g.session, choice, g.round), g.round)
    case OneSecond =>
      TickKeepsInv(g.session);
      Game(StoppedTick(g.session), g.round)
  }

  /**
    A sequence of inputs.  The round never changes, `Consistent` is kept,
    the score never decreases, and a game whose round is over or whose
    time is up stays exactly as it is.
   */
  function GameRun(g: Game, inputs: seq<Input>): (r: Game)
    requires |g.round| == RoundLength
    ensures r.round == g.round
    ensures r.session.score >= g.session.score && r.session.index >= g.session.index
    ensures Terminal(g.session) ==> r == g
    ensures Consistent(g) ==> Consistent(r)
    decreases |inputs|
  {
    if |inputs| == 0 then g else GameRun(GameStep(g, inputs[0]), inputs[1..])
  }

  /** Once an end message is on screen, no input changes it. */
  lemma EndScreenStable(g: Game, inputs: seq<Input>)
    requires Consistent(g) && IsEndMessage(View(g.session))
    ensures View(GameRun(g, inputs).session) == View(g.session)
  {
  }

  /** No question is shown twice: two positions of a run show different questions. */
  lemma NoQuestionRepeats(g: Game, inputs: seq<Input>)
    requires Consistent(g)
    ensures var r := GameRun(g, inputs);
      r.session.index != g.session.index && r.session.index < RoundLength && g.session.index < RoundLength
      ==> r.session.current != g.session.current
  {
  }

  /** The clicks of a player who answers each remaining question of the round right. */
  function PerfectClicks(g: Game): (inputs: seq<Input>)
    requires Consistent(g)
    ensures |inputs| == RoundLength - g.session.index
    ensures forall j :: 0 <= j < |inputs| ==> inputs[j] == Click(g.round[g.session.index + j].answer)
  {
    var n := g.session.index;
    seq(RoundLength - n, j requires 0 <= j < RoundLength - n => Click(g.round[n + j].answer))
  }

  /**
    With the round fixed, answering every remaining question right before
    time is up ends the round with no point lost.
   */
  lemma {:induction false} PerfectClicksFinish(g: Game)
    requires Consistent(g) && !g.session.endTime
    requires g.session.score == MaxScoreBefore(g.session.index)
    ensures var r := GameRun(g, PerfectClicks(g));
      r.session.endGame && !r.session.endTime && r.session.score == MaxScoreBefore(RoundLength)
    decreases RoundLength - g.session.index
  {
    var inputs := PerfectClicks(g);
    if g.session.index < RoundLength {
      var t := GameStep(g, inputs[0]);
      assert t.session.index == g.session.index + 1;
      assert t.session.score == MaxScoreBefore(t.session.index);
      assert inputs[1..] == PerfectClicks(t);
      PerfectClicksFinish(t);
    } else {
      assert inputs == [];
    }
  }

  /** The corrected game can still be won, and then the winning message stays. */
  lemma PerfectGameStaysWon(d: ShuffledDraw, later: seq<Input>)
    ensures var won := GameRun(Start(d), PerfectClicks(Start(d)));
      && View(won.session) == Won(10)
      && View(GameRun(won, later).session) == Won(10)
  {
    MaxRoundScoreIsTen();
    PerfectClicksFinish(Start(d));
  }
}

=== FILE: findings.dfy ===
/**
  Two behaviours of the game as written that run against what its code
  evidently means, each exhibited on runs of the controller model.  The
  countdown belongs to the open question (it restarts with every load and
  runs only while a question is loaded), yet it outlives the round.  A
  whole round of distinct questions is sampled, yet a new one is sampled
  at every load and only one of its questions is read.
 */
module Findings {

  import opened Wrappers
  import opened Questions
  import opened Sampler
  import opened Controller
  import opened Screen
  import opened Play

  /**
    The countdown is not stopped when the round ends: on any reachable
    state showing the winning message, time is still left, and once it
    passes the time-up message replaces the winning one.
   */
  lemma WonScreenTimesOut(s: Session)
    requires Inv(s) && View(s) == Won(10)
    ensures 0 < s.timeLeft <= QuestionTime
    ensures View(Run(s, Seconds(s.timeLeft))) == TimeUp(10)
  {
    TicksRunOut(s);
  }

  /** A perfect round reaches the winning message, which then times out. */
  lemma WinTurnsIntoTimeUp(d: ShuffledDraw, waits: seq<nat>, ds: seq<ShuffledDraw>)
    requires InTime(waits) && |ds| == RoundLength
    ensures var won := Run(Mount(d), PlannedPlay(Mount(d), AllRight, waits, ds));
      && View(won) == Won(10)
      && 0 < won.timeLeft <= QuestionTime
      && View(Run(won, Seconds(won.timeLeft))) == TimeUp(10)
  {
    PerfectRoundWins(d, waits, ds);
    WonScreenTimesOut(Run(Mount(d), PlannedPlay(Mount(d), AllRight, waits, ds)));
  }

  /** A sequence with its first two entries exchanged. */
  function SwapFirstTwo(s: seq<Question>): (r: seq<Question>)
    requires |s| >= 2
    ensures |r| == |s| && r[0] == s[1] && r[1] == s[0] && r[2..] == s[2..]
    ensures multiset(r) == multiset(s)
  {
    assert s == [s[0], s[1]] + s[2..];
    [s[1], s[0]] + s[2..]
  }

  /**
    Each load samples a new round, so whatever round was drawn at the
    mount, the first click can draw one whose second question is the
    first question again, and that question is loaded a second time.
   */
  lemma RedrawCanRepeat(d: ShuffledDraw, choice: bool)
    ensures exists again: ShuffledDraw ::
      var t := Step(Mount(d), Press(choice, again));
      t.index == 1 && !Terminal(t) && t.current == Mount(d).current
  {
    ShuffleLength(d.easy, EasyPool());
    var again: ShuffledDraw := Draw(SwapFirstTwo(d.easy), d.hard);
    var t := Step(Mount(d), Press(choice, again));
    assert t.current == Some(SampleRound(again)[1]);
  }
}

=== FILE: play.dfy ===
/**
  Whole-round properties of the controller: how high the score can go,
  that it gets there when every answer is right, that eight answers end
  the round, and that an unanswered question times out.
 */
module Play {

  import opened Questions
  import opened Sampler
  import opened Controller
  import opened Screen

  predicate AllPresses(es: seq<Event>)
  {
    forall i :: 0 <= i < |es| ==> es[i].Press?
  }

  /** `n` seconds of the interval with no click. */
  function Seconds(n: nat): (es: seq<Event>)
    ensures |es| == n
    ensures forall i :: 0 <= i < n ==> es[i] == Second
  {
    seq(n, i => Second)
  }

  /** From any reachable state, the score never exceeds ten, whatever is clicked and whenever. */
  lemma ReachableScoreAtMostTen(s: Session, es: seq<Event>)
    requires Inv(s)
    ensures Run(s, es).score <= 10
  {
    MaxRoundScoreIsTen();
    var r := Run(s, es);
    MaxScoreBeforeMonotone(r.index, RoundLength);
  }

  /** From the mount, the score never exceeds ten. */
  lemma ScoreAtMostTen(d: ShuffledDraw, es: seq<Event>)
    ensures Run(Mount(d), es).score <= 10
  {
    ReachableScoreAtMostTen(Mount(d), es);
  }

  lemma {:induction false} MaxScoreBeforeMonotone(i: nat, j: nat)
    requires i <= j <= RoundLength
    ensures MaxScoreBefore(i) <= MaxScoreBefore(j)
    decreases j - i
  {
    if i < j {
      MaxScoreBeforeMonotone(i, j - 1);
    }
  }

  /** Running one event and then the rest is running the whole sequence. */
  lemma RunCons(s: Session, e: Event, rest: seq<Event>)
    ensures Run(s, [e] + rest) == Run(Step(s, e), rest)
  {
    assert ([e] + rest)[0] == e;
    assert ([e] + rest)[1..] == rest;
  }

  /**
    The points a round gives when position `j` is answered right exactly
    when `plan[j]` holds, counting the first `i` positions.
   */
  function PlanScore(plan: seq<bool>, i: nat): nat
    requires |plan| == RoundLength && i <= RoundLength
  {
    if i == 0 then 0
    else PlanScore(plan, i - 1) + (if plan[i - 1] then Points(DifficultyAt(i - 1)) else 0)
  }

  /** The click that answers the loaded question right exactly when `right` holds. */
  function Answering(s: Session, right: bool): bool
    requires s.current.Some?
  {
    if right then s.current.value.answer else !s.current.value.answer
  }

  /** Running `a` then `b` is running their concatenation. */
  lemma {:induction false} RunAppend(s: Session, a: seq<Event>, b: seq<Event>)
    ensures Run(s, a + b) == Run(Run(s, a), b)
    decreases |a|
  {
    if |a| == 0 {
      assert a + b == b;
    } else {
      assert (a + b)[0] == a[0];
      assert (a + b)[1..] == a[1..] + b;
      RunAppend(Step(s, a[0]), a[1..], b);
    }
  }

  /** Seconds alone change neither the score, the index, the question nor the round flag. */
  lemma {:induction false} SecondsKeep(s: Session, n: nat)
    ensures var r := Run(s, Seconds(n));
      r.score == s.score && r.index == s.index && r.current == s.current && r.endGame == s.endGame
    decreases n
  {
    if n > 0 {
      assert Seconds(n)[1..] == Seconds(n - 1);
      SecondsKeep(Tick(s), n - 1);
    }
  }

  /** Fewer seconds than remain only count the countdown down. */
  lemma {:induction false} SecondsWithinTime(s: Session, n: nat)
    requires Inv(s) && n < s.timeLeft
    ensures Run(s, Seconds(n)) == s.(timeLeft := s.timeLeft - n)
    decreases n
  {
    if n > 0 {
      var t := Tick(s);
      assert Step(s, Second) == t == s.(timeLeft := s.timeLeft - 1);
      assert Seconds(n)[1..] == Seconds(n - 1);
      SecondsWithinTime(t, n - 1);
    } else {
      assert Seconds(0) == [];
    }
  }

  /** Every wait is shorter than the countdown of a question. */
  predicate InTime(waits: seq<nat>)
  {
    && |waits| == RoundLength
    && forall j :: 0 <= j < |waits| ==> waits[j] < QuestionTime
  }

  /**
    The events of a player who, at position `j`, lets `waits[j]` seconds
    pass and then answers right exactly when `plan[j]` holds; the load
    after position `j` uses draw `ds[j]`.
   */
  function PlannedPlay(s: Session, plan: seq<bool>, waits: seq<nat>, ds: seq<ShuffledDraw>): seq<Event>
    requires |plan| == RoundLength && |waits| == RoundLength && |ds| == RoundLength
    decreases RoundLength - s.index
  {
    if s.index >= RoundLength || !AnswerEnabled(s) then []
    else
      var wait := Seconds(waits[s.index]);
      var w := Run(s, wait);
      SecondsKeep(s, waits[s.index]);
      if !AnswerEnabled(w) then wait
      else
        var e := Press(Answering(w, plan[s.index]), ds[s.index]);
        wait + [e] + PlannedPlay(Step(w, e), plan, waits, ds)
  }

  /** One planned click earns the points the plan gives its position, and restarts the countdown. */
  lemma PlannedStep(s: Session, plan: seq<bool>, d: ShuffledDraw)
    requires Inv(s) && AnswerEnabled(s) && |plan| == RoundLength
    ensures var t := Step(s, Press(Answering(s, plan[s.index]), d));
      && Inv(t) && !t.endTime && t.index == s.index + 1
      && (t.endGame || t.timeLeft == QuestionTime)
      && t.score == s.score + PlanScore(plan, t.index) - PlanScore(plan, s.index)
  {
  }

  lemma NoPressesAfterRound(s: Session, plan: seq<bool>, waits: seq<nat>, ds: seq<ShuffledDraw>)
    requires s.endGame && |plan| == RoundLength && |waits| == RoundLength && |ds| == RoundLength
    ensures PlannedPlay(s, plan, waits, ds) == []
    ensures Run(s, PlannedPlay(s, plan, waits, ds)) == s
  {
  }

  /**
    From a freshly loaded question, playing out a plan whose every wait is
    shorter than the countdown ends the round, before time is up, having
    earned exactly the points of the positions the plan answers right.
   */
  lemma {:induction false} PlanFinishes(s: Session, plan: seq<bool>, waits: seq<nat>, ds: seq<ShuffledDraw>)
    requires Inv(s) && !s.endTime && (s.endGame || s.timeLeft == QuestionTime)
    requires |plan| == RoundLength && InTime(waits) && |ds| == RoundLength
    ensures var r := Run(s, PlannedPlay(s, plan, waits, ds));
      && r.endGame && !r.endTime && r.index == RoundLength
      && r.score == s.score + PlanScore(plan, RoundLength) - PlanScore(plan, s.index)
    decreases RoundLength - s.index, 1
  {
    if s.endGame {
      NoPressesAfterRound(s, plan, waits, ds);
    } else {
      PlanContinues(s, plan, waits, ds);
    }
  }

  /** A wait shorter than the countdown followed by a click is the click on the counted-down state. */
  lemma RunWaitClick(s: Session, n: nat, e: Event, rest: seq<Event>)
    requires Inv(s) && n < s.timeLeft
    ensures Run(s, Seconds(n) + ([e] + rest)) == Run(Step(s.(timeLeft := s.timeLeft - n), e), rest)
  {
    SecondsWithinTime(s, n);
    RunAppend(s, Seconds(n), [e] + rest);
    RunCons(s.(timeLeft := s.timeLeft - n), e, rest);
  }

  /**
    On an open question with a full countdown, the plan waits its seconds,
    leaving `w`, and then clicks `e`.
   */
  lemma PlannedPlayUnfolds(s: Session, plan: seq<bool>, waits: seq<nat>, ds: seq<ShuffledDraw>, w: Session, e: Event)
    requires Inv(s) && !s.endTime && !s.endGame && s.timeLeft == QuestionTime
    requires |plan| == RoundLength && InTime(waits) && |ds| == RoundLength
    requires w == s.(timeLeft := s.timeLeft - waits[s.index])
    requires AnswerEnabled(w) && e == Press(Answering(w, plan[s.index]), ds[s.index])
    ensures PlannedPlay(s, plan, waits, ds) == Seconds(waits[s.index]) + ([e] + PlannedPlay(Step(w, e), plan, waits, ds))
  {
    var wait := Seconds(waits[s.index]);
    SecondsWithinTime(s, waits[s.index]);
    assert Run(s, wait) == w;
    var rest := PlannedPlay(Step(w, e), plan, waits, ds);
    assert PlannedPlay(s, plan, waits, ds) == wait + [e] + rest;
    assert wait + [e] + rest == wait + ([e] + rest);
  }

  lemma {:induction false} PlanContinues(s: Session, plan: seq<bool>, waits: seq<nat>, ds: seq<ShuffledDraw>)
    requires Inv(s) && !s.endTime && !s.endGame && s.timeLeft == QuestionTime
    requires |plan| == RoundLength && InTime(waits) && |ds| == RoundLength
    ensures var r := Run(s, PlannedPlay(s, plan, waits, ds));
      && r.endGame && !r.endTime && r.index == RoundLength
      && r.score == s.score + PlanScore(plan, RoundLength) - PlanScore(plan, s.index)
    decreases RoundLength - s.index, 0
  {
    var n := waits[s.index];
    var w := s.(timeLeft := s.timeLeft - n);
    assert Inv(w) && AnswerEnabled(w);
    var e := Press(Answering(w, plan[s.index]), ds[s.index]);
    var t := Step(w, e);
    var rest := PlannedPlay(t, plan, waits, ds);
    PlannedPlayUnfolds(s, plan, waits, ds, w, e);
    RunWaitClick(s, n, e, rest);
    PlannedStep(w, plan, ds[s.index]);
    PlanFinishes(t, plan, waits, ds);
  }

  /**
    Whatever the draws, a round played out from the mount, with any waits
    shorter than the countdown before the clicks, scores exactly what its
    plan gives.
   */
  lemma PlannedRoundScore(d: ShuffledDraw, plan: seq<bool>, waits: seq<nat>, ds: seq<ShuffledDraw>)
    requires |plan| == RoundLength && InTime(waits) && |ds| == RoundLength
    ensures var r := Run(Mount(d), PlannedPlay(Mount(d), plan, waits, ds));
      r.endGame && !r.endTime && r.score == PlanScore(plan, RoundLength)
  {
    PlanFinishes(Mount(d), plan, waits, ds);
  }

  /** The plan that answers every question right. */
  const AllRight: seq<bool> := seq(RoundLength, j => true)

  lemma {:induction false} AllRightScoresMax(i: nat)
    requires i <= RoundLength
    ensures PlanScore(AllRight, i) == MaxScoreBefore(i)
  {
    if i > 0 {
      AllRightScoresMax(i - 1);
    }
  }

  /** A round answered right from the first question to the last, in time, is won with ten points. */
  lemma PerfectRoundWins(d: ShuffledDraw, waits: seq<nat>, ds: seq<ShuffledDraw>)
    requires InTime(waits) && |ds| == RoundLength
    ensures var r := Run(Mount(d), PlannedPlay(Mount(d), AllRight, waits, ds));
      r.score == 10 && View(r) == Won(10)
  {
    MaxRoundScoreIsTen();
    AllRightScoresMax(RoundLength);
    PlannedRoundScore(d, AllRight, waits, ds);
  }

  /** The plan that answers the first four (easy) questions right and the rest wrong. */
  const FourRight: seq<bool> := [true, true, true, true, false, false, false, false]

  lemma FourRightScoresFour()
    ensures PlanScore(FourRight, RoundLength) == 4
  {
    assert PlanScore(FourRight, 4) == 4;
    assert PlanScore(FourRight, 8) == PlanScore(FourRight, 7) == PlanScore(FourRight, 6)
      == PlanScore(FourRight, 5) == PlanScore(FourRight, 4);
  }

  /** Four easy questions right and the rest wrong, in time: four points, and the try-again message. */
  lemma FourRightThenWrongTriesAgain(d: ShuffledDraw, waits: seq<nat>, ds: seq<ShuffledDraw>)
    requires InTime(waits) && |ds| == RoundLength
    ensures var r := Run(Mount(d), PlannedPlay(Mount(d), FourRight, waits, ds));
      r.score == 4 && View(r) == TryAgain(4)
  {
    FourRightScoresFour();
    PlannedRoundScore(d, FourRight, waits, ds);
  }

  /** The number of clicks in a sequence of events. */
  function PressCount(es: seq<Event>): (n: nat)
    ensures n <= |es|
    ensures AllPresses(es) ==> n == |es|
    decreases |es|
  {
    if |es| == 0 then 0 else (if es[0].Press? then 1 else 0) + PressCount(es[1..])
  }

  /**
    With seconds passing anywhere between them, as many clicks as questions
    remain either end the round at index 8 or meet the end of the time
    first; with no second among them, time cannot run out.
   */
  lemma {:induction false} PressesCompleteRound(s: Session, es: seq<Event>)
    requires Inv(s) && PressCount(es) == RoundLength - s.index
    ensures var r := Run(s, es); r.endTime || (r.endGame && r.index == RoundLength)
    ensures AllPresses(es) && !s.endTime ==> !Run(s, es).endTime
    decreases |es|
  {
    if |es| > 0 && !Terminal(s) {
      var t, rest := Step(s, es[0]), es[1..];
      assert AllPresses(es) ==> AllPresses(rest);
      PressesCompleteRound(t, rest);
    }
  }

  /**
    Eight clicks from the mount, with any seconds among them, end with the
    time-up message or with one of the three score messages of a finished
    round; eight clicks in a row always reach a score message.
   */
  lemma EightPressesEndRound(d: ShuffledDraw, es: seq<Event>)
    requires PressCount(es) == RoundLength
    ensures var r := Run(Mount(d), es);
      View(r).TimeUp? || (r.endGame && (View(r).Won? || View(r).AlmostThere? || View(r).TryAgain?))
    ensures AllPresses(es) ==> !Run(Mount(d), es).endTime
  {
    PressesCompleteRound(Mount(d), es);
  }

  /**
    Without a click, the countdown runs out: after `timeLeft` seconds time
    is up, with score, index and round flag as they were.
   */
  lemma {:induction false} TicksRunOut(s: Session)
    requires Inv(s) && !s.endTime
    ensures var r := Run(s, Seconds(s.timeLeft));
      r.endTime && r.timeLeft == 0 && r.score == s.score && r.index == s.index && r.endGame == s.endGame
    decreases s.timeLeft
  {
    var t := Tick(s);
    assert Seconds(s.timeLeft)[1..] == Seconds(s.timeLeft - 1);
    if s.timeLeft > 1 {
      TicksRunOut(t);
    } else {
      assert Seconds(0) == [];
    }
  }

  /** Twenty idle seconds on the first question: time is up with no points. */
  lemma IdleFirstQuestionTimesOut(d: ShuffledDraw)
    ensures View(Run(Mount(d), Seconds(QuestionTime))) == TimeUp(0)
  {
    TicksRunOut(Mount(d));
  }

  /** After time is up, no click or second changes the score or the message. */
  lemma TimeUpIsFinal(s: Session, es: seq<Event>)
    requires s.endTime
    ensures View(Run(s, es)) == View(s)
  {
  }
}

=== FILE: questions.dfy ===
/**
  The question records and the two static pools of the quiz game.
  Question texts are opaque to the controller, so each statement is
  represented by a label; the ground-truth answer and the difficulty of
  every entry are those of the game's pools, in the same order.
 */
module Questions {

  datatype Difficulty = Easy | Hard

  datatype Question = Question(text: string, answer: bool, difficulty: Difficulty)

  /** Points awarded for a correct answer: 1 for an easy question, 2 for a hard one. */
  function Points(d: Difficulty): (p: nat)
    ensures 1 <= p <= 2
    ensures p == 2 <==> d == Hard
  {
    match d
    case Easy => 1
    case Hard => 2
  }

  /** Every entry of `pool` has difficulty `d`. */
  predicate AllOf(pool: seq<Question>, d: Difficulty)
  {
    forall i :: 0 <= i < |pool| ==> pool[i].difficulty == d
  }

  /** No two positions of `s` hold the same question. */
  predicate Distinct(s: seq<Question>)
  {
    forall i, j :: 0 <= i < j < |s| ==> s[i] != s[j]
  }

  /** A two-digit label "<prefix> NN" standing for the text of entry `k` of a pool. */
  function Label(prefix: string, k: nat): string
    requires k < 100
  {
    prefix + [' ', ('0' as int + k / 10) as char, ('0' as int + k % 10) as char]
  }

  lemma LabelInjective(prefix: string, k: nat, l: nat)
    requires k < 100 && l < 100 && k != l
    ensures Label(prefix, k) != Label(prefix, l)
  {
    var a, b := Label(prefix, k), Label(prefix, l);
    var n := |prefix|;
    if k / 10 == l / 10 {
      assert a[n + 2] != b[n + 2];
    } else {
      assert a[n + 1] != b[n + 1];
    }
  }

  /** The ground-truth answers of the easy pool, in pool order. */
  const EasyAnswers: seq<bool> :=
    [true, false, true, false, true, false, true, false, true,
     true, true, true, false, false, false, true, true, true]

  /** The ground-truth answers of the hard pool, in pool order. */
  const HardAnswers: seq<bool> := [false, true, true, true, false, false]

  /** A pool whose entry `k` has answer `answers[k]` and difficulty `d`. */
  function Pool(prefix: string, answers: seq<bool>, d: Difficulty): (pool: seq<Question>)
    requires |answers| < 100
    ensures |pool| == |answers|
    ensures AllOf(pool, d)
    ensures Distinct(pool)
    ensures forall k :: 0 <= k < |pool| ==> pool[k].answer == answers[k]
  {
    var pool := seq(|answers|, k requires 0 <= k < |answers| => Question(Label(prefix, k), answers[k], d));
    forall i, j | 0 <= i < j < |pool|
      ensures pool[i] != pool[j]
    {
      LabelInjective(prefix, i, j);
    }
    pool
  }

  /** The easy pool: 18 statements, each worth one point. */
  function EasyPool(): (pool: seq<Question>)
    ensures |pool| == 18
    ensures AllOf(pool, Easy)
    ensures Distinct(pool)
  {
    Pool("easy", EasyAnswers, Easy)
  }

  /** The hard pool: 6 statements, each worth two points. */
  function HardPool(): (pool: seq<Question>)
    ensures |pool| == 6
    ensures AllOf(pool, Hard)
    ensures Distinct(pool)
  {
    Pool("hard", HardAnswers, Hard)
  }
}

=== FILE: sampler.dfy ===
/**
  The round sampler: shuffle a copy of each pool, keep the first six easy
  and the first two hard questions, and concatenate them easy-then-hard.
  The shuffle itself (a sort with a random comparator) is not modelled;
  whatever it returns is a rearrangement of the pool, so it is taken as an
  input constrained only by that.
 */
module Sampler {

  import opened Questions

  const EasyPerRound: nat := 6
  const HardPerRound: nat := 2
  const RoundLength: nat := EasyPerRound + HardPerRound

  /** `shuffled` holds exactly the elements of `pool`, in some order. */
  predicate IsShuffleOf(shuffled: seq<Question>, pool: seq<Question>)
  {
    multiset(shuffled) == multiset(pool)
  }

  /** The two shuffled pool copies one call of the sampler works from. */
  datatype Draw = Draw(easy: seq<Question>, hard: seq<Question>)

  predicate ValidDraw(d: Draw)
  {
    IsShuffleOf(d.easy, EasyPool()) && IsShuffleOf(d.hard, HardPool())
  }

  /** A draw the sampler can actually make. */
  type ShuffledDraw = d: Draw | ValidDraw(d) witness Draw(EasyPool(), HardPool())

  /** The pool a round position is filled from. */
  function PoolAt(i: nat): seq<Question>
  {
    if i < EasyPerRound then EasyPool() else HardPool()
  }

  /** The difficulty of the question at round position `i`. */
  function DifficultyAt(i: nat): Difficulty
  {
    if i < EasyPerRound then Easy else Hard
  }

  lemma InPoolAtHasDifficulty(q: Question, i: nat)
    requires q in PoolAt(i)
    ensures q.difficulty == DifficultyAt(i)
  {
    var pool := PoolAt(i);
    var k :| 0 <= k < |pool| && pool[k] == q;
  }

  function Min(a: nat, b: nat): nat
  {
    if a <= b then a else b
  }

  /** `slice(0, count)`: the first `count` elements, or all of them when there are fewer. */
  function Take(s: seq<Question>, count: nat): (r: seq<Question>)
    ensures |r| == Min(count, |s|)
    ensures r <= s
  {
    if |s| <= count then s else s[..count]
  }

  /** A shuffled copy of a pool is as long as the pool. */
  lemma ShuffleLength(shuffled: seq<Question>, pool: seq<Question>)
    requires IsShuffleOf(shuffled, pool)
    ensures |shuffled| == |pool|
  {
    assert |shuffled| == |multiset(shuffled)| == |multiset(pool)| == |pool|;
  }

  /** An element of a shuffled copy of a pool is an element of the pool. */
  lemma ShuffleMember(shuffled: seq<Question>, pool: seq<Question>, k: nat)
    requires IsShuffleOf(shuffled, pool) && k < |shuffled|
    ensures shuffled[k] in pool
  {
    assert shuffled[k] in multiset(shuffled);
  }

  /**
    One round: the first six questions of the shuffled easy copy followed
    by the first two of the shuffled hard copy, so position `i` holds a
    question of the pool and difficulty of that position.
   */
  function SampleRound(d: Draw): (round: seq<Question>)
    requires ValidDraw(d)
    ensures |round| == RoundLength
    ensures round[..EasyPerRound] <= d.easy
    ensures round[EasyPerRound..] <= d.hard
    ensures forall i :: 0 <= i < |round| ==> round[i].difficulty == DifficultyAt(i)
  {
    ShuffleLength(d.easy, EasyPool());
    ShuffleLength(d.hard, HardPool());
    var round := Take(d.easy, EasyPerRound) + Take(d.hard, HardPerRound);
    assert forall i :: 0 <= i < |round| ==> round[i] in PoolAt(i) by {
      forall i | 0 <= i < |round|
        ensures round[i] in PoolAt(i)
      {
        if i < EasyPerRound {
          ShuffleMember(d.easy, EasyPool(), i);
        } else {
          ShuffleMember(d.hard, HardPool(), i - EasyPerRound);
        }
      }
    }
    assert forall i :: 0 <= i < |round| ==> round[i].difficulty == DifficultyAt(i) by {
      forall i | 0 <= i < |round|
        ensures round[i].difficulty == DifficultyAt(i)
      {
        InPoolAtHasDifficulty(round[i], i);
      }
    }
    round
  }

  /** Every question of a round is drawn from the pool of its position. */
  lemma RoundFromPools(d: Draw, i: nat)
    requires ValidDraw(d)
    ensures i < RoundLength ==> SampleRound(d)[i] in PoolAt(i)
  {
    if i >= RoundLength {
    } else if i < EasyPerRound {
      ShuffleLength(d.easy, EasyPool());
      ShuffleMember(d.easy, EasyPool(), i);
    } else {
      ShuffleLength(d.hard, HardPool());
      ShuffleMember(d.hard, HardPool(), i - EasyPerRound);
    }
  }

  /**
    Within one round, sampling is without replacement: the easy part holds
    no easy question more often than the pool does, and likewise the hard part.
   */
  lemma RoundWithoutReplacement(d: Draw)
    requires ValidDraw(d)
    ensures multiset(SampleRound(d)[..EasyPerRound]) <= multiset(EasyPool())
    ensures multiset(SampleRound(d)[EasyPerRound..]) <= multiset(HardPool())
  {
    var round := SampleRound(d);
    ShuffleLength(d.easy, EasyPool());
    ShuffleLength(d.hard, HardPool());
    assert round[..EasyPerRound] == d.easy[..EasyPerRound];
    assert round[EasyPerRound..] == d.hard[..HardPerRound];
    assert d.easy == d.easy[..EasyPerRound] + d.easy[EasyPerRound..];
    assert d.hard == d.hard[..HardPerRound] + d.hard[HardPerRound..];
  }

  /** Eight questions, each of the difficulty of its position. */
  predicate RoundShaped(round: seq<Question>)
  {
    && |round| == RoundLength
    && forall i :: 0 <= i < |round| ==> round[i].difficulty == DifficultyAt(i)
  }

  /** A sequence without repeated elements holds each value at most once. */
  lemma {:induction false} DistinctCountsAtMostOne(s: seq<Question>, x: Question)
    requires Distinct(s)
    ensures multiset(s)[x] <= 1
    decreases |s|
  {
    if |s| > 0 {
      var rest := s[1..];
      assert s == [s[0]] + rest;
      assert Distinct(rest) by {
        forall i, j | 0 <= i < j < |rest|
          ensures rest[i] != rest[j]
        {
          assert rest[i] == s[i + 1] && rest[j] == s[j + 1];
        }
      }
      DistinctCountsAtMostOne(rest, x);
      if s[0] == x {
        assert x !in rest by {
          forall k | 0 <= k < |rest|
            ensures rest[k] != x
          {
            assert rest[k] == s[k + 1];
          }
        }
      }
    }
  }

  /** A value held at two positions is counted at least twice. */
  lemma RepeatCountsTwice(s: seq<Question>, i: nat, j: nat)
    requires i < j < |s| && s[i] == s[j]
    ensures multiset(s)[s[i]] >= 2
  {
    var front, back := s[..j], s[j..];
    assert s == front + back;
    assert front[i] == s[i];
    assert back[0] == s[j];
    assert s[i] in multiset(front) && s[i] in multiset(back);
  }

  /** Rearranging a repetition-free pool gives a repetition-free sequence. */
  lemma ShuffleKeepsDistinct(shuffled: seq<Question>, pool: seq<Question>)
    requires IsShuffleOf(shuffled, pool)
    requires Distinct(pool)
    ensures Distinct(shuffled)
  {
    forall i, j | 0 <= i < j < |shuffled|
      ensures shuffled[i] != shuffled[j]
    {
      if shuffled[i] == shuffled[j] {
        RepeatCountsTwice(shuffled, i, j);
        DistinctCountsAtMostOne(pool, shuffled[i]);
        assert false;
      }
    }
  }

  /**
    Sampling within one call is without replacement: the eight questions
    of a round are pairwise different.
   */
  lemma RoundIsDistinct(d: Draw)
    requires ValidDraw(d)
    ensures Distinct(SampleRound(d))
  {
    var round := SampleRound(d);
    ShuffleKeepsDistinct(d.easy, EasyPool());
    ShuffleKeepsDistinct(d.hard, HardPool());
    ShuffleLength(d.easy, EasyPool());
    ShuffleLength(d.hard, HardPool());
    forall i, j | 0 <= i < j < |round|
      ensures round[i] != round[j]
    {
      if j < EasyPerRound {
        assert round[i] == d.easy[i] && round[j] == d.easy[j];
      } else if EasyPerRound <= i {
        assert round[i] == d.hard[i - EasyPerRound] && round[j] == d.hard[j - EasyPerRound];
      } else {
        assert round[i].difficulty != round[j].difficulty;
      }
    }
  }
}

=== FILE: screen.dfy ===
/**
  The render branch of the `Game` component reduced to what it shows:
  the time-up message takes precedence over the end-of-round messages,
  which are chosen by score; otherwise the question view, with its two
  answer buttons, when a question is loaded, and nothing before that.
 */
module Screen {

  import opened Questions
  import opened Sampler
  import opened Controller

  /** Score needed for the winning message. */
  const WinScore: nat := 10

  /** Lowest score of the "almost there" message. */
  const AlmostScore: nat := 5

  datatype Screen =
    | TimeUp(score: nat)
    | Won(score: nat)
    | AlmostThere(score: nat)
    | TryAgain(score: nat)
    | Asking(question: Question, score: nat, timeLeft: int)
    | Blank

  predicate IsEndMessage(v: Screen)
  {
    v.TimeUp? || v.Won? || v.AlmostThere? || v.TryAgain?
  }

  /**
    What is on screen.  An end message appears exactly when a terminal
    flag is set, and carries the final score; time-up wins over the
    round-over messages; the round-over message is chosen by the score
    alone; answer buttons are on screen exactly when `Submit` acts.
   */
  function View(s: Session): (v: Screen)
    ensures IsEndMessage(v) <==> Terminal(s)
    ensures IsEndMessage(v) ==> v.score == s.score
    ensures v.TimeUp? <==> s.endTime
    ensures v.Asking? <==> AnswerEnabled(s)
    ensures v.Asking? ==> v == Asking(s.current.value, s.score, s.timeLeft)
    ensures v.Blank? <==> !Terminal(s) && s.current.None?
    ensures s.endGame && !s.endTime ==>
      && (v.Won? <==> s.score == WinScore)
      && (v.AlmostThere? <==> s.score != WinScore && s.score >= AlmostScore)
      && (v.TryAgain? <==> s.score < AlmostScore)
  {
    if s.endTime then TimeUp(s.score)
    else if s.endGame then
      if s.score == WinScore then Won(s.score)
      else if s.score >= AlmostScore then AlmostThere(s.score)
      else TryAgain(s.score)
    else if s.current.Some? then Asking(s.current.value, s.score, s.timeLeft)
    else Blank
  }

  /**
    On every state reached from a mount something is on screen, and the
    winning message means no point of the round was lost.
   */
  lemma ReachableScreens(s: Session)
    requires Inv(s)
    ensures !View(s).Blank?
    ensures View(s).Won? ==> s.score == MaxScoreBefore(RoundLength)
    ensures View(s).AlmostThere? ==> AlmostScore <= s.score < WinScore
  {
    MaxRoundScoreIsTen();
  }
}

=== FILE: wrappers.dfy ===
/** The optional value the controller uses for "no question loaded yet". */
module Wrappers {

  datatype Option<+T> = None | Some(value: T)
}
